=== FILE: README.md ===
# ScribeTable core in Dafny

ScribeTable is a browser app that turns a photo of a handwritten table into a
spreadsheet. The user drops an image on the uploader. The app shrinks the image
if its base64 text would exceed the model's payload budget. It then streams the
model's answer, strips any Markdown fences and parses the JSON table. The user
can edit the table cell by cell and export it as CSV.

This project models that logic, one Dafny module per source file:

- `Types` and `Constants` (types.dfy, constants.dfy): the table type, the
  processing statuses, the format allow-list and the 50 MB cap.
- `FileHelpers` (file_helpers.dfy): how `processFileForAI` decides to
  re-encode, the `compressImage` quality loop as a method proved against a
  recursive specification, and the CSV text built by `downloadCSV`.
- `Rfc4180` (rfc4180.dfy): an independent reader for the quoted-field grammar
  of section 2 of RFC 4180. It reads records separated by LF and an empty line
  as a record with no fields (see "## Left out"). It is used to prove that the
  CSV text round-trips.
- `TablePreview` (table_preview.dfy): the copy-on-write cell edit, and the
  coordinates the rendered inputs pass to it.
- `GeminiService` (gemini_service.dfy): the stream loop as a method, the
  progress-message cadence, the fence stripping and `trim`, and the error for
  an empty answer.
- `ImageUploader` (image_uploader.dfy): the validator, plus the `Uploader`
  class whose fields are the component's `dragActive`, `preview` and `error`
  state.
- `App` (app.dfy): the `Session` class whose fields are the app's `status`,
  `data`, `error` and `progressMessage` state, and the view predicates over
  `status`.
- `Decimal` (decimal.dfy): how a template literal renders a natural number
  of at most 2^53. Above that, JavaScript writes the fewest digits that read
  back as the same double, which is not always the exact numeral. The app
  only renders 50 and stream chunk counts.
- `QualityDrift` (quality_drift.dfy): the quality loop exactly as written, on
  IEEE 754 binary64 arithmetic.

External calls become inputs:

- the data URL the FileReader produced;
- a `Canvas` value giving the bitmap error, whether a 2D context exists, and
  the data URL `toDataURL` yields at each quality;
- the response stream, as the sequence of its chunks' `text` values plus an
  optional stream error;
- `JSON.parse`, as an abstract function;
- the result of processing and extraction, given to the session as an outcome
  value.

JPEG qualities are counted in integer tenths (9 down to 5). A thrown exception
is an `Err` carrying its message. A data URL without a comma makes
`split(',')[1]` undefined, and the code then reads `.length` on it. The model
keeps that error path, with V8's wording of the TypeError message, instead of
assuming it away.

## Model

| member | source | states |
|---|---|---|
| FileHelpers.Split | utils/fileHelpers.ts:25 | `split` yields at least one piece, no piece holds the separator, and joining the pieces with the separator gives back the text |
| FileHelpers.PayloadIsDataPart | utils/fileHelpers.ts:25 | for a data URL `data:[<mediatype>][;base64],<data>` (section 3 of RFC 2397), `split(',')[1]` is exactly the `<data>` part |
| FileHelpers.SplitPieces | utils/fileHelpers.ts:25 | `split` yields a second piece if and only if the text holds the separator |
| FileHelpers.SplitJoin | utils/fileHelpers.ts:25 | splitting pieces that hold no separator, after joining them with it, gives back exactly those pieces |
| FileHelpers.PayloadOf | utils/fileHelpers.ts:25 | `split(',')[1]` is undefined if and only if the data URL holds no comma; a defined payload holds no comma |
| FileHelpers.Oversized | utils/fileHelpers.ts:51 | the first half of the loop guard: the encoding at that quality has a payload longer than 18·1024·1024 characters |
| FileHelpers.OversizedAbove | utils/fileHelpers.ts:51 | every quality above q, up to the top one, gave a payload over the budget; the run of qualities the loop passed over |
| FileHelpers.Descend | utils/fileHelpers.ts:46-55 | the loop from a given quality ends between the floor 0.5 and that quality; its result is the payload of the encoding at that quality; that payload fits the 18 MiB budget or was made at 0.5; every higher quality tried was over budget; it fails only with the undefined-payload TypeError, and only when the loop reached an encoding with no comma: every quality above that one was over budget |
| FileHelpers.Compressed | utils/fileHelpers.ts:32-58 | a bitmap error is passed on unchanged, and every success has mime type `image/jpeg` whatever the input type |
| FileHelpers.CompressionNeverFailsForSize | utils/fileHelpers.ts:46-57 | when the bitmap decodes, the context exists and the data URLs are well formed, compression always succeeds and never fails because of size; it makes at most 4 re-encodes (0.9 down to 0.5); the result fits the budget or was made at 0.5 |
| FileHelpers.CompressImage | utils/fileHelpers.ts:32-58 | the imperative loop returns exactly the `Compressed` result, always with mime type `image/jpeg`; a missing 2D context fails with "Could not get canvas context" before any encoding |
| FileHelpers.ProcessFileForAI | utils/fileHelpers.ts:4-16 | a payload of at most 18·1024·1024 characters (strict `>` test) is returned unchanged with the file's own type; a longer one takes the compression path; a read failure rejects with the reader's error event, which carries no message; an undefined payload fails with the TypeError |
| FileHelpers.CsvContent | utils/fileHelpers.ts:61-63 | the text `downloadCSV` builds: each row's line, joined by LF; that it reads back as the same table is `Rfc4180.CsvRoundTrip`, and that different tables give different texts is `Rfc4180.CsvContentInjective` |
| FileHelpers.CsvRow | utils/fileHelpers.ts:62 | one row's line: its cells quoted and joined by `,`; `Rfc4180.ReadRow` reads it back |
| FileHelpers.Join | utils/fileHelpers.ts:62-63 | `join`: the pieces with the separator between neighbours and none at the ends; `FileHelpers.SplitJoin` inverts it |
| FileHelpers.QuoteCell | utils/fileHelpers.ts:62 | a quoted field starts and ends with a double quote, and a cell without quotes is only wrapped in them |
| FileHelpers.EscapeQuotes | utils/fileHelpers.ts:62 | `cell.replace(/"/g, '""')`: every double quote doubled, all else kept; `Rfc4180.ReadEscaped` reads the cell back from it |
| FileHelpers.EscapeQuotesQuoteFree | utils/fileHelpers.ts:62 | a cell without double quotes is not changed by the escaping |
| FileHelpers.EscapeQuotesLength | utils/fileHelpers.ts:62 | escaping keeps at least the cell's length and at most doubles it |
| FileHelpers.QuoteExample | utils/fileHelpers.ts:62 | the cell `a"b` is written as `"a""b"`: wrapped in double quotes, with the quote inside doubled (rules 5 and 7 of section 2 of RFC 4180); that every cell is read back from its quoted form is `Rfc4180.ReadEscaped` |
| FileHelpers.EmptyTablesCollide | utils/fileHelpers.ts:61-63 | the empty table and the table with one empty row both serialise to the empty text, so the round trip below needs a non-empty table |
| Rfc4180.ReadRow | utils/fileHelpers.ts:62 | a line of k >= 1 quoted cells is read back as exactly those k cells |
| Rfc4180.ReadEscaped | utils/fileHelpers.ts:62 | an RFC 4180 reader recovers a cell exactly from its escaped text, quotes included |
| Rfc4180.CsvRoundTrip | utils/fileHelpers.ts:61-63 | for every non-empty table, reading back the text `downloadCSV` builds (cells quoted, joined by `,`, rows by LF, no trailing newline) gives back the same table, including cells with commas, quotes and newlines |
| Rfc4180.CsvContentInjective | utils/fileHelpers.ts:61-63 | two different non-empty tables never give the same CSV text |
| TablePreview.Renders | components/TablePreview.tsx:11 | the component renders only a non-empty table and returns null otherwise; `TablePreview.EditSitesAreCells` shows that an empty table offers no input |
| TablePreview.Headers | components/TablePreview.tsx:13 | the header row is the first row of a non-empty table |
| TablePreview.Rows | components/TablePreview.tsx:14 | the body rows are the table after its first row |
| TablePreview.IsEditSite | components/TablePreview.tsx:47-72 | the coordinates an input passes to `handleCellChange`: `(0, c)` for a header cell, `(i + 1, c)` for cell c of body row i; `TablePreview.EditSitesAreCells` proves they are exactly the cells |
| TablePreview.EditSitesAreCells | components/TablePreview.tsx:47-72 | the inputs (headers at `(0, c)`, body cells at `(i + 1, c)` of `data.slice(1)`) address exactly the existing cells: every edit lands on a cell, every cell has an input, and an empty table renders no input at all |
| TablePreview.HeaderRowSplit | components/TablePreview.tsx:13-14 | the header row plus the body rows is the whole table |
| TablePreview.HandleCellChange | components/TablePreview.tsx:16-27 | the new table has the same number of rows; the edited cell holds the value; its row keeps its length and its other cells; every other row is unchanged; an index that matches no row gives the same table |
| TablePreview.RewriteIsIdentity | components/TablePreview.tsx:16-27 | writing back a cell's current value gives the same table |
| TablePreview.LastEditWins | components/TablePreview.tsx:16-27 | of two edits of one cell, the later one decides the result |
| TablePreview.EditsOfDistinctCellsCommute | components/TablePreview.tsx:16-27 | edits of two different cells give the same table in either order |
| GeminiService.HasText | services/geminiService.ts:58 | the truthiness of `chunk.text`: present and not the empty string |
| GeminiService.Assembled | services/geminiService.ts:55-60 | `fullText`: the texts of the chunks that carry one, in arrival order; its properties are the two lemmas below |
| GeminiService.ChunkMessage | services/geminiService.ts:62 | the progress message for chunk n, "Receiving data stream (chunk n)..." |
| GeminiService.ChunkMessageInjective | services/geminiService.ts:62 | different chunk numbers give different progress messages |
| GeminiService.StreamMessages | services/geminiService.ts:55-65 | the messages the stream loop reports, one per chunk number in `ProgressChunks`; `ExtractTableData` reports exactly these |
| GeminiService.AssembledAppend | services/geminiService.ts:55-60 | `fullText` is built in arrival order: the text of a stream is the text of its first part followed by the text of the rest |
| GeminiService.AssembledEmpty | services/geminiService.ts:55-69 | `fullText` is empty exactly when no chunk carries a non-empty text |
| GeminiService.ProgressChunks | services/geminiService.ts:55-65 | the chunk numbers named in stream messages lie between 1 and the number of chunks, and strictly increase |
| GeminiService.ProgressChunksExactly | services/geminiService.ts:56-63 | a stream message names chunk n if and only if the n-th chunk has text and n is a multiple of 3; textless chunks are counted too |
| GeminiService.CadenceExamples | services/geminiService.ts:56-63 | a textless second chunk still leaves the third chunk numbered 3; an empty third chunk emits nothing |
| GeminiService.StripFences | services/geminiService.ts:71 | the global fence regex as `replace` applies it: every "```json" with its optional line break, and every other "```", removed while scanning left to right; the result is never longer; its behaviour is stated by the fence lemmas below |
| GeminiService.CleanResponse | services/geminiService.ts:71 | the text given to `JSON.parse`: the fences stripped, then trimmed |
| GeminiService.TrimStart | services/geminiService.ts:71 | removes a maximal prefix of ECMAScript white space and line terminators and keeps the rest |
| GeminiService.TrimEnd | services/geminiService.ts:71 | removes a maximal suffix of ECMAScript white space and line terminators and keeps the rest |
| GeminiService.Trim | services/geminiService.ts:71 | the trimmed text is a slice of the input whose margins are all white space, and it neither starts nor ends with white space |
| GeminiService.NoBacktickNoStrip | services/geminiService.ts:71 | a text with no backtick is changed only by `trim` |
| GeminiService.FenceRemovedAnywhere | services/geminiService.ts:71 | the fence regex is global: a fence in the middle of the text is removed as well, not only fences at the ends |
| GeminiService.FencedStrip | services/geminiService.ts:71 | a backtick-free body wrapped in an opening "```json" line and a closing "```" strips to exactly that body |
| GeminiService.TrimNewline | services/geminiService.ts:71 | `trim` removes the line break left after the body, and nothing of the body itself |
| GeminiService.FencedExample | services/geminiService.ts:71 | "```json\n[[\"x\"]]\n```" cleans to `[["x"]]` |
| GeminiService.ExtractTableData | services/geminiService.ts:9-80 | progress is "Initializing AI model...", then one message per text chunk whose number is a multiple of 3, then "Finalizing structure..." once the stream ends; a stream error is rethrown unchanged; an empty text fails with "No data returned from the model." without parsing; otherwise the result is whatever the parser returns for the cleaned text, with no shape check |
| Decimal.DecimalString | components/ImageUploader.tsx:25 | a number of at most 2^53 renders as a non-empty string of digits with no leading zero |
| Decimal.DecimalRoundTrip | services/geminiService.ts:62 | the rendered chunk number reads back as that number |
| Decimal.DecimalStringInjective | services/geminiService.ts:62 | different numbers give different numerals |
| ImageUploader.ValidationError | components/ImageUploader.tsx:16-27 | a file is accepted if and only if its type is PNG, JPEG or WebP and its size is at most 50·1024·1024 bytes; a wrong type reports the format message; an allowed type that is too large reports the size message |
| ImageUploader.FileTooLargeMessage | components/ImageUploader.tsx:25 | the template literal `File size exceeds ${MAX_FILE_SIZE_MB}MB limit.` with the constant rendered in decimal |
| ImageUploader.FileTooLargeMessageText | components/ImageUploader.tsx:25 | the size message reads "File size exceeds 50MB limit." |
| ImageUploader.SizeBoundary | components/ImageUploader.tsx:24 | an allowed file of exactly 52,428,800 bytes is accepted; one byte more is refused |
| ImageUploader.FormatReportedFirst | components/ImageUploader.tsx:19-27 | a file of the wrong type that is also too large reports the format message |
| ImageUploader.Uploader.constructor | components/ImageUploader.tsx:11-13 | the zone starts inactive, with no preview and no error |
| ImageUploader.Uploader.HandleFiles | components/ImageUploader.tsx:16-34 | `error` becomes the validation error, or null; the file is handed to `onImageSelected` once exactly when it is valid |
| ImageUploader.Uploader.OnPreviewLoaded | components/ImageUploader.tsx:30 | the preview becomes the loaded data URL |
| ImageUploader.Uploader.HandleDrag | components/ImageUploader.tsx:36-44 | `dragenter` and `dragover` activate the zone, `dragleave` deactivates it, and any other event leaves it as it was |
| ImageUploader.Uploader.HandleDrop | components/ImageUploader.tsx:46-53 | a drop always leaves the zone inactive; only the first file is handled; with no file nothing is called and the error is kept |
| ImageUploader.Uploader.HandleChange | components/ImageUploader.tsx:55-60 | only the first picked file is handled; with no file nothing is called |
| ImageUploader.Uploader.ClearImage | components/ImageUploader.tsx:62-66 | the preview becomes null |
| App.ShownMessage | App.tsx:40 | the message shown is the error's own message, or "An unexpected error occurred processing the image." when that is empty; never empty |
| App.Settle | App.tsx:22-41 | SUCCESS if and only if the result is a non-empty table, and then `data` is that table exactly; otherwise ERROR with `data` empty and a message: "The AI could not detect any tabular data." for an empty or null result, and the thrown message for any failure |
| App.SettleIsFinal | App.tsx:22-41 | an upload always settles in SUCCESS or ERROR |
| App.ShowsInputSection | App.tsx:73 | the input section renders in IDLE, UPLOADING and PROCESSING |
| App.ShowsProgress | App.tsx:75-76 | inside it, the progress indicator renders in PROCESSING |
| App.ShowsUploader | App.tsx:77-83 | inside it otherwise, the uploader renders |
| App.ShowsErrorPanel | App.tsx:84-95 | the "Processing Failed" panel, guarded by ERROR inside the uploader branch |
| App.ShowsResults | App.tsx:102 | the results section renders in SUCCESS |
| App.OffersReset | App.tsx:84-114 | a "Try Again" or "Upload New Image" button is on screen |
| App.ErrorPanelUnreachable | App.tsx:73-102 | as written, the "Processing Failed" panel never shows; in ERROR the screen shows no uploader, no progress, no results and no reset button |
| App.FailedUploadShowsIntendedPanel | App.tsx:73-102 | with the input section also shown in ERROR, a settled upload shows the failure panel exactly when it failed, and always offers a way back |
| App.Session.Valid | App.tsx:22-41 | the invariant every session method keeps: SUCCESS holds a non-empty table, and UPLOADING is never entered |
| App.Session.constructor | App.tsx:11-14 | the session starts IDLE with no data, no error and "Initializing..." |
| App.Session.StartUpload | App.tsx:17-20 | starting an upload gives PROCESSING, error null, data empty and "Optimizing image..." |
| App.Session.OnProgress | App.tsx:27-29 | a progress callback stores the message verbatim |
| App.Session.Finish | App.tsx:31-41 | the state settles as `Settle` says |
| App.Session.HandleImageUpload | App.tsx:16-42 | after an upload the state is `Settle` of the outcome and the progress message is the last one reported; the session stays valid, so SUCCESS always holds a non-empty table and UPLOADING is never entered |
| App.Session.EditCell | App.tsx:141 | an edit in the results table replaces `data` by the cell edit of the old table and keeps SUCCESS with a non-empty table |
| App.Session.HandleReset | App.tsx:44-49 | from any state, reset gives IDLE, data empty, error null and "Initializing..." |
| QualityDrift.Subtract | utils/fileHelpers.ts:52 | `quality -= 0.1`: the exact difference of two binary64 values, rounded to 53 significant bits with ties to even; the lemmas below evaluate it step by step |
| QualityDrift.QualityAfter | utils/fileHelpers.ts:46-52 | the binary64 quality after n executions of `quality -= 0.1` from 0.9; its values are the lemmas below |
| QualityDrift.ReencodesAsWritten | utils/fileHelpers.ts:50-55 | the number of decrements the loop as written makes before its guard fails, for a given oversize test |
| QualityDrift.QualityAfter4 | utils/fileHelpers.ts:46-52 | in binary64, 0.9 minus 0.1 four times is 0.5000000000000001 (significand 2^52 + 1, exponent -53) |
| QualityDrift.QualityAfter5 | utils/fileHelpers.ts:46-52 | the fifth subtraction gives 0.40000000000000013 |
| QualityDrift.FourthStepAboveHalf | utils/fileHelpers.ts:51-52 | after four decrements the quality is still above 0.5; after five it is below |
| QualityDrift.FifthStepBelowFloor | utils/fileHelpers.ts:50-55 | with an image that is never small enough, the loop as written re-encodes five times, the last time at a quality below 0.5 |

## Left out

- The Gemini client setup and request configuration (services/geminiService.ts:7,19-50): this is a vendor API. The response stream is an input.
- `JSON.parse` (services/geminiService.ts:72) is an abstract function returning a table, `null` or an error. Other JSON values (objects, numbers, non-string cells) are not modelled, because the code casts them to `TableData` unchecked.
- A stream error is taken to come after the chunks read so far. An error in the middle of the stream is the same as a shorter chunk sequence followed by that error.
- Browser imaging is not modelled: `createImageBitmap`, canvas drawing and the JPEG encoder. Their observable results are the `Canvas` input. The FileReader's result is the `read` input; its error event (a ProgressEvent with no `message`) is an exception with an empty message, so the app shows its fallback text for it.
- Blob, object URLs, and the hidden-link download in `downloadCSV` are browser I/O and are not modelled. Only the CSV text is.
- `downloadExcel` is not part of this model. It is a thin wrapper over the XLSX library.
- The preview FileReader in `handleFiles` is modelled only as the later `OnPreviewLoaded` update.
- Clearing the file input's value in `clearImage` is a DOM side effect and is not modelled.
- JSX markup and styling are not modelled, nor is components/ProcessingState.tsx. Only the view predicates over `status` are kept.
- async/await is modelled as ordered steps, because the awaits run one after another.
- `console.log` and `console.error` calls are not modelled.
- The system prompt text in constants.ts is not modelled.
- TablePreview.HandleCellChange: requires the column to exist in an existing row. In JavaScript, writing at index `row.length` appends a cell, and writing further out leaves holes in the row (a sparse array). The view never issues either edit (EditSitesAreCells), so that case is not modelled.
- App.Session.Finish: requires `error` to be null and `data` to be empty. `handleImageUpload` only reaches it after its start step has set them so.
- FileHelpers: JPEG quality is counted in exact tenths. The binary64 drift is modelled separately in QualityDrift (see Findings).
- QualityDrift.ReencodesAsWritten carries a recursion bound (fuel). The run it is used on stops after five steps, well within the bound.
- CSV line endings: the text uses LF between rows, not the CRLF of rule 1 of section 2 of RFC 4180. The reader in Rfc4180 accepts LF to match.
- Empty rows: the reader in Rfc4180 reads an empty line as a record with no fields, which is what `downloadCSV` writes for an empty row. The grammar of section 2 of RFC 4180 (`record = field *(COMMA field)`, with a field possibly empty) reads the same line as one empty field. So `[[], ["a"]]` round-trips under this reader's convention, and a strict RFC 4180 reader gives `[[""], ["a"]]` instead.

## Findings

| source | as written | input that shows it | evidently intended | confidence | as-written member | corrected member |
|---|---|---|---|---|---|---|
| utils/fileHelpers.ts:46-55 | `quality -= 0.1` on binary64 values, guarded by `quality > 0.5` | an image whose JPEG exceeds 18 MiB at every quality: after four steps the quality is 0.5000000000000001, so a fifth encoding is made at 0.40000000000000013 | stop at 0.5 after at most four re-encodes, as the comment on line 50 says | not executed | QualityDrift.FifthStepBelowFloor | FileHelpers.CompressionNeverFailsForSize |
| App.tsx:73-99 | the "Processing Failed" panel is guarded by `status === ERROR` inside a branch that only renders for IDLE, UPLOADING and PROCESSING | any failed upload, e.g. a result of `[]`: status is ERROR, and the screen shows neither the panel, nor the uploader, nor any reset button | show the panel with the message and "Try Again" in ERROR | not executed | App.ErrorPanelUnreachable | App.FailedUploadShowsIntendedPanel |

=== FILE: app.dfy ===
/** App.tsx: the upload session. Its state is the four React state cells
    `status`, `data`, `error` and `progressMessage`. An upload is the ordered
    steps of `handleImageUpload`: the start (setting PROCESSING), the progress
    callbacks in the order the extraction made them, and the settling on the
    outcome of `processFileForAI` followed by `extractTableData`, which comes
    in as a value (Err for anything either of them threw; Ok(None) for a
    `null` result). */
module App {
  import opened Types
  import TablePreview

  const InitialProgressMessage: string := "Initializing..."
  const OptimizingMessage: string := "Optimizing image..."
  const NoTableMessage: string := "The AI could not detect any tabular data."
  const UnexpectedErrorMessage: string := "An unexpected error occurred processing the image."

  /** `err.message || "An unexpected error ..."`. */
  function ShownMessage(e: Exception): (message: string)
    ensures message != ""
    ensures e.message != "" ==> message == e.message
    ensures e.message == "" ==> message == UnexpectedErrorMessage
  {
    if e.message == "" then UnexpectedErrorMessage else e.message
  }

  /** What the try/catch of `handleImageUpload` leaves in `status`, `data`
      and `error`. */
  datatype Settled = Settled(status: ProcessingStatus, data: TableData, error: Option<string>)

  function Settle(outcome: Result<Option<TableData>>): (s: Settled)
    ensures s.status == Success <==> outcome.Ok? && outcome.value.Some? && |outcome.value.value| > 0
    ensures s.status == Success ==> s.data == outcome.value.value && s.error == None
    ensures s.status != Success ==> s.status == Error && s.data == [] && s.error.Some? && s.error.value != ""
    ensures outcome.Ok? && (outcome.value.None? || outcome.value.value == []) ==> s.error == Some(NoTableMessage)
    ensures outcome.Err? ==> s.error == Some(ShownMessage(outcome.error))
  {
    match outcome
    case Ok(Some(result)) =>
      if |result| > 0 then Settled(Success, result, None)
      else Settled(Error, [], Some(ShownMessage(Exception(NoTableMessage))))
    case Ok(None) => Settled(Error, [], Some(ShownMessage(Exception(NoTableMessage))))
    case Err(e) => Settled(Error, [], Some(ShownMessage(e)))
  }

  /** An upload settles in SUCCESS or ERROR, never in the other statuses. */
  lemma SettleIsFinal(outcome: Result<Option<TableData>>)
    ensures Settle(outcome).status in {Success, Error}
  {
  }

  // ---------------------------------------------------------------------
  // The view

  /** The input section (App.tsx line 73). */
  predicate ShowsInputSection(status: ProcessingStatus) {
    status == Idle || status == Uploading || status == Processing
  }

  /** Inside it, the progress indicator while processing. */
  predicate ShowsProgress(status: ProcessingStatus) {
    ShowsInputSection(status) && status == Processing
  }

  /** Inside it otherwise, the uploader. */
  predicate ShowsUploader(status: ProcessingStatus) {
    ShowsInputSection(status) && status != Processing
  }

  /** The "Processing Failed" panel as written: guarded by `status === ERROR`
      inside the uploader branch. */
  predicate ShowsErrorPanel(status: ProcessingStatus) {
    ShowsUploader(status) && status == Error
  }

  /** The results section: toolbar, editable table and export buttons. */
  predicate ShowsResults(status: ProcessingStatus) {
    status == Success
  }

  /** A "Try Again" or "Upload New Image" button is on screen. */
  predicate OffersReset(status: ProcessingStatus) {
    ShowsErrorPanel(status) || ShowsResults(status)
  }

  /** As written, the error panel can never be shown: its guard contradicts
      the branch it sits in. After a failed upload the screen shows neither
      the uploader, nor the results, nor any way back. */
  lemma ErrorPanelUnreachable(status: ProcessingStatus)
    ensures !ShowsErrorPanel(status)
    ensures status == Error ==> !ShowsUploader(status) && !ShowsProgress(status) && !ShowsResults(status)
    ensures status == Error ==> !OffersReset(status)
  {
  }

  /** The intended input section also covers ERROR, so that the failure panel
      and its "Try Again" button appear. */
  predicate ShowsInputSectionIntended(status: ProcessingStatus) {
    ShowsInputSection(status) || status == Error
  }

  predicate ShowsErrorPanelIntended(status: ProcessingStatus) {
    ShowsInputSectionIntended(status) && status != Processing && status == Error
  }

  /** With the intended view, every failed upload shows the failure panel
      with the message, and every settled upload offers a way back. */
  lemma FailedUploadShowsIntendedPanel(outcome: Result<Option<TableData>>)
    ensures Settle(outcome).status == Error <==> ShowsErrorPanelIntended(Settle(outcome).status)
    ensures ShowsErrorPanelIntended(Settle(outcome).status) || ShowsResults(Settle(outcome).status)
  {
  }

  // ---------------------------------------------------------------------
  // The session

  class Session {
    var status: ProcessingStatus
    var data: TableData
    var error: Option<string>
    var progressMessage: string

    /** A successful session always holds a table to show, and the status
        UPLOADING is never entered. */
    predicate Valid()
      reads this
    {
      (status == Success ==> |data| > 0) && status != Uploading
    }

    constructor ()
      ensures Valid()
      ensures status == Idle && data == [] && error == None && progressMessage == InitialProgressMessage
    {
      status := Idle;
      data := [];
      error := None;
      progressMessage := InitialProgressMessage;
    }

    /** The first four state updates of `handleImageUpload`. */
    method StartUpload()
      modifies this
      ensures Valid()
      ensures status == Processing && error == None && data == [] && progressMessage == OptimizingMessage
    {
      status := Processing;
      error := None;
      data := [];
      progressMessage := OptimizingMessage;
    }

    /** The progress callback handed to `extractTableData`. */
    method OnProgress(message: string)
      requires Valid()
      modifies this`progressMessage
      ensures Valid()
      ensures progressMessage == message
    {
      progressMessage := message;
    }

    /** The end of `handleImageUpload`: keep a non-empty result, otherwise
        fail with the thrown message. It follows `StartUpload`, which
        cleared `error` and `data`. */
    method Finish(outcome: Result<Option<TableData>>)
      requires error == None && data == []
      modifies this`status, this`data, this`error
      ensures Valid()
      ensures Settled(status, data, error) == Settle(outcome)
    {
      if outcome.Ok? && outcome.value.Some? && |outcome.value.value| > 0 {
        data := outcome.value.value;
        status := Success;
      } else {
        var e := if outcome.Err? then outcome.error else Exception(NoTableMessage);
        status := Error;
        error := Some(ShownMessage(e));
      }
    }

    /** `handleImageUpload` as its ordered steps. */
    method HandleImageUpload(progress: seq<string>, outcome: Result<Option<TableData>>)
      modifies this
      ensures Valid()
      ensures Settled(status, data, error) == Settle(outcome)
      ensures progressMessage == if progress == [] then OptimizingMessage else progress[|progress| - 1]
    {
      StartUpload();
      for i := 0 to |progress|
        invariant Valid() && status == Processing && data == [] && error == None
        invariant progressMessage == if i == 0 then OptimizingMessage else progress[i - 1]
      {
        OnProgress(progress[i]);
      }
      Finish(outcome);
    }

    /** An edit in the results table (`onDataChange={setData}`); the table is
        only rendered in SUCCESS, and only at existing cells. */
    method EditCell(rowIndex: nat, colIndex: nat, value: string)
      requires Valid() && status == Success
      requires TablePreview.IsEditSite(data, rowIndex, colIndex)
      modifies this`data
      ensures Valid()
      ensures data == TablePreview.HandleCellChange(old(data), rowIndex, colIndex, value)
    {
      TablePreview.EditSitesAreCells(data, rowIndex, colIndex);
      data := TablePreview.HandleCellChange(data, rowIndex, colIndex, value);
    }

    /** `handleReset`: back to the initial state, from any state. */
    method HandleReset()
      modifies this
      ensures Valid()
      ensures status == Idle && data == [] && error == None && progressMessage == InitialProgressMessage
    {
      status := Idle;
      data := [];
      error := None;
      progressMessage := InitialProgressMessage;
    }
  }
}

=== FILE: constants.dfy ===
/** The configuration constants of constants.ts. */
module Constants {

  /** The largest file the uploader accepts, in MiB. */
  const MaxFileSizeMb: nat := 50

  /** The media types the uploader accepts. */
  const SupportedFormats: seq<string> := ["image/png", "image/jpeg", "image/webp"]
}

=== FILE: decimal.dfy ===
/** How JavaScript writes a non-negative integer of at most 2^53 into a
    template literal: its decimal numeral, with no leading zero. Above 2^53 a
    number is a double that JavaScript writes with the fewest digits that read
    back as the same double (`${2**64}` is "18446744073709552000"), so the
    exact numeral no longer matches; the numbers the app renders (the 50 MB
    cap and stream chunk counts) are far below that bound. */
module Decimal {

  predicate IsDigit(c: char) {
    '0' <= c <= '9'
  }

  function DigitChar(d: nat): (c: char)
    requires d < 10
    ensures IsDigit(c) && (c as int) - ('0' as int) == d
  {
    (('0' as int) + d) as char
  }

  /** `${n}` for a natural number n of at most 2^53 (for larger n, the
      exact numeral, which JavaScript may round). */
  function DecimalString(n: nat): (s: string)
    ensures |s| > 0
    ensures forall i :: 0 <= i < |s| ==> IsDigit(s[i])
    ensures |s| > 1 ==> s[0] != '0'
    decreases n
  {
    if n < 10 then [DigitChar(n)] else DecimalString(n / 10) + [DigitChar(n % 10)]
  }

  /** The number a string of decimal digits denotes. */
  function DecimalValue(s: string): nat
    requires forall i :: 0 <= i < |s| ==> IsDigit(s[i])
  {
    if s == [] then 0
    else
      assert IsDigit(s[|s| - 1]);
      10 * DecimalValue(s[..|s| - 1]) + ((s[|s| - 1] as int) - ('0' as int))
  }

  /** Reading back the numeral gives the number, so distinct chunk counts
      produce distinct progress messages. */
  lemma {:induction false} DecimalRoundTrip(n: nat)
    ensures DecimalValue(DecimalString(n)) == n
    decreases n
  {
    if n >= 10 {
      var s := DecimalString(n);
      assert s[..|s| - 1] == DecimalString(n / 10);
      DecimalRoundTrip(n / 10);
    }
  }

  lemma DecimalStringInjective(m: nat, n: nat)
    ensures DecimalString(m) == DecimalString(n) ==> m == n
  {
    DecimalRoundTrip(m);
    DecimalRoundTrip(n);
  }
}

=== FILE: file_helpers.dfy ===
/** utils/fileHelpers.ts: fitting an image into the model's payload budget,
    and the CSV text that `downloadCSV` builds.

    Browser imaging (FileReader, createImageBitmap, the canvas and its JPEG
    encoder) is not modelled; what the code observes of it comes in as
    values: the data URL the reader produced, and a `Canvas` describing the
    decoded bitmap and the data URL `toDataURL` gives at each quality. */
module FileHelpers {
  import opened Types

  /** The budget for the base64 text sent to the model: 18 MiB. */
  const ApiPayloadLimitBytes: nat := 18 * 1024 * 1024

  /** JPEG qualities are counted in tenths: the loop starts at 0.9 and stops
      re-encoding once it is down to 0.5. */
  const InitialQuality: int := 9
  const QualityFloor: int := 5

  const JpegMimeType: string := "image/jpeg"
  const NoCanvasContextMessage: string := "Could not get canvas context"

  /** What `fileToBase64` rejects with when the FileReader fails: the reader's
      error event, a ProgressEvent, which has no `message`. */
  const ReadErrorEvent: Exception := Exception("")

  /** What `processFileForAI` resolves to. */
  datatype Payload = Payload(base64: string, mimeType: string)

  /** What the browser provides once the file is decoded: the error
      `createImageBitmap` rejects with, if any; whether a 2D context was
      available; and the data URL the canvas encodes to at each quality
      (in tenths). */
  datatype Canvas = Canvas(bitmapError: Option<Exception>, hasContext: bool, toDataUrl: int -> string)

  // ---------------------------------------------------------------------
  // Data URLs

  /** `s.split(sep)`: the pieces between separators, left to right. */
  function Split(s: string, sep: char): (pieces: seq<string>)
    ensures |pieces| >= 1
    ensures forall i :: 0 <= i < |pieces| ==> sep !in pieces[i]
    ensures Join(pieces, [sep]) == s
    decreases |s|
  {
    if s == [] then [[]]
    else
      var rest := Split(s[1..], sep);
      if s[0] == sep then [[]] + rest else [[s[0]] + rest[0]] + rest[1..]
  }

  /** `dataUrl.split(',')[1]`: the second piece, or `undefined` (None) when
      the text holds no comma. */
  function PayloadOf(dataUrl: string): (payload: Option<string>)
    ensures payload.None? <==> ',' !in dataUrl
    ensures payload.Some? ==> ',' !in payload.value
  {
    SplitPieces(dataUrl, ',');
    var pieces := Split(dataUrl, ',');
    if |pieces| >= 2 then Some(pieces[1]) else None
  }

  lemma {:induction false} SplitNoSeparator(s: string, sep: char)
    requires sep !in s
    ensures Split(s, sep) == [s]
    decreases |s|
  {
    if s != [] {
      SplitNoSeparator(s[1..], sep);
      assert [s[0]] + s[1..] == s;
    }
  }

  lemma {:induction false} SplitAtFirst(a: string, sep: char, b: string)
    requires sep !in a
    ensures Split(a + [sep] + b, sep) == [a] + Split(b, sep)
    decreases |a|
  {
    if a != [] {
      assert (a + [sep] + b)[1..] == a[1..] + [sep] + b;
      SplitAtFirst(a[1..], sep, b);
      assert [a[0]] + a[1..] == a;
    } else {
      assert (a + [sep] + b)[1..] == b;
    }
  }

  /** A data URL `data:[<mediatype>][;base64],<data>` (section 3 of RFC 2397)
      yields exactly its `<data>` part, since base64 text holds no comma; a
      text with no comma at all yields `undefined`. */
  lemma PayloadIsDataPart(header: string, data: string)
    requires ',' !in header && ',' !in data
    ensures PayloadOf(header + [','] + data) == Some(data)
  {
    SplitAtFirst(header, ',', data);
    SplitNoSeparator(data, ',');
  }

  /** `split` yields a second piece exactly when the text holds the
      separator. */
  lemma SplitPieces(s: string, sep: char)
    ensures |Split(s, sep)| >= 2 <==> sep in s
  {
    if sep in s {
      SplitAtSeparator(s, sep);
    } else {
      SplitNoSeparator(s, sep);
    }
  }

  lemma SplitAtSeparator(s: string, sep: char)
    requires sep in s
    ensures |Split(s, sep)| >= 2
  {
    var i :| 0 <= i < |s| && s[i] == sep;
    var j := FirstIndex(s, sep, i);
    var before, after := s[..j], s[j + 1..];
    assert s == before + [sep] + after;
    SplitAtFirst(before, sep, after);
  }

  /** Splitting the joined pieces gives them back, when no piece holds the
      separator: `split` undoes `join`. */
  lemma {:induction false} SplitJoin(parts: seq<string>, sep: char)
    requires |parts| >= 1
    requires forall i :: 0 <= i < |parts| ==> sep !in parts[i]
    ensures Split(Join(parts, [sep]), sep) == parts
    decreases |parts|
  {
    if |parts| == 1 {
      SplitNoSeparator(parts[0], sep);
    } else {
      SplitJoin(parts[1..], sep);
      assert Join(parts, [sep]) == parts[0] + [sep] + Join(parts[1..], [sep]);
      SplitAtFirst(parts[0], sep, Join(parts[1..], [sep]));
      assert [parts[0]] + parts[1..] == parts;
    }
  }

  /** The position of the first occurrence of c, given one at position i. */
  function FirstIndex(s: string, c: char, i: nat): (j: nat)
    requires i < |s| && s[i] == c
    ensures j <= i && s[j] == c && c !in s[..j]
  {
    if s[0] == c then 0 else 1 + FirstIndex(s[1..], c, i - 1)
  }

  // ---------------------------------------------------------------------
  // Payload fitting

  /** One encoding the compression loop settled on. */
  datatype Attempt = Attempt(quality: int, base64: string)

  predicate Oversized(toDataUrl: int -> string, quality: int) {
    var encoded := PayloadOf(toDataUrl(quality));
    encoded.Some? && |encoded.value| > ApiPayloadLimitBytes
  }

  /** Every quality above q, up to top, gave an over-budget payload. */
  predicate OversizedAbove(toDataUrl: int -> string, q: int, top: int) {
    forall p :: q < p <= top ==> Oversized(toDataUrl, p)
  }

  /** An over-budget payload at top extends the run of over-budget
      qualities below it by one. */
  lemma OversizedAboveExtend(toDataUrl: int -> string, top: int)
    requires Oversized(toDataUrl, top)
    ensures forall q :: OversizedAbove(toDataUrl, q, top - 1) ==> OversizedAbove(toDataUrl, q, top)
  {
  }

  /** The quality loop from `quality` downwards: re-encode one tenth lower
      while the payload is over budget and the quality is above the floor.
      A data URL without a comma makes `base64.length` throw. */
  function Descend(toDataUrl: int -> string, quality: int): (r: Result<Attempt>)
    requires QualityFloor <= quality
    ensures r.Ok? ==> QualityFloor <= r.value.quality <= quality
    ensures r.Ok? ==> PayloadOf(toDataUrl(r.value.quality)) == Some(r.value.base64)
    ensures r.Ok? ==> |r.value.base64| <= ApiPayloadLimitBytes || r.value.quality == QualityFloor
    ensures r.Ok? ==> OversizedAbove(toDataUrl, r.value.quality, quality)
    ensures r.Err? ==> r.error == Exception(UndefinedLengthMessage)
    ensures r.Err? ==> exists q :: QualityFloor <= q <= quality && PayloadOf(toDataUrl(q)).None?
                                   && OversizedAbove(toDataUrl, q, quality)
    decreases quality
  {
    match PayloadOf(toDataUrl(quality))
    case None => Err(Exception(UndefinedLengthMessage))
    case Some(base64) =>
      if |base64| > ApiPayloadLimitBytes && quality > QualityFloor then
        OversizedAboveExtend(toDataUrl, quality);
        Descend(toDataUrl, quality - 1)
      else Ok(Attempt(quality, base64))
  }

  /** What `compressImage` resolves to. */
  function Compressed(canvas: Canvas): (r: Result<Payload>)
    ensures canvas.bitmapError.Some? ==> r == Err(canvas.bitmapError.value)
    ensures r.Ok? ==> r.value.mimeType == JpegMimeType
  {
    if canvas.bitmapError.Some? then Err(canvas.bitmapError.value)
    else if !canvas.hasContext then Err(Exception(NoCanvasContextMessage))
    else match Descend(canvas.toDataUrl, InitialQuality)
      case Err(e) => Err(e)
      case Ok(a) => Ok(Payload(a.base64, JpegMimeType))
  }

  /** The compression path never fails because of size: when every data URL
      the loop may ask for is well formed, it returns an encoding, and that
      encoding is either within budget or the one made at quality 0.5. The
      loop re-encodes at most four times (0.9 down to 0.5). */
  lemma CompressionNeverFailsForSize(canvas: Canvas)
    requires canvas.bitmapError.None? && canvas.hasContext
    requires forall q :: QualityFloor <= q <= InitialQuality ==> ',' in canvas.toDataUrl(q)
    ensures Compressed(canvas).Ok?
    ensures var a := Descend(canvas.toDataUrl, InitialQuality).value;
            && Compressed(canvas).value.base64 == a.base64
            && InitialQuality - a.quality <= 4
            && (|a.base64| <= ApiPayloadLimitBytes || a.quality == QualityFloor)
  {
  }

  /** `compressImage`: draw the bitmap at full size, then encode as JPEG at
      quality 0.9, 0.8, ... until the payload fits or the quality is 0.5. */
  method CompressImage(canvas: Canvas) returns (r: Result<Payload>)
    ensures r == Compressed(canvas)
    ensures r.Ok? ==> r.value.mimeType == JpegMimeType
    ensures !canvas.hasContext && canvas.bitmapError.None? ==> r == Err(Exception(NoCanvasContextMessage))
  {
    if canvas.bitmapError.Some? {
      return Err(canvas.bitmapError.value);
    }
    if !canvas.hasContext {
      return Err(Exception(NoCanvasContextMessage));
    }
    var quality := InitialQuality;
    var base64 := PayloadOf(canvas.toDataUrl(quality));
    while base64.Some? && |base64.value| > ApiPayloadLimitBytes && quality > QualityFloor
      invariant QualityFloor <= quality <= InitialQuality
      invariant base64 == PayloadOf(canvas.toDataUrl(quality))
      invariant Descend(canvas.toDataUrl, quality) == Descend(canvas.toDataUrl, InitialQuality)
      decreases quality
    {
      quality := quality - 1;
      base64 := PayloadOf(canvas.toDataUrl(quality));
    }
    if base64.None? {
      return Err(Exception(UndefinedLengthMessage));
    }
    return Ok(Payload(base64.value, JpegMimeType));
  }

  /** `processFileForAI`: send the file's own base64 text and type when it is
      within budget (the strict `>` lets a payload of exactly 18 MiB through),
      otherwise the JPEG re-encoding. `read` is the data URL the FileReader
      produced, or None when it fired its error event. */
  method ProcessFileForAI(read: Option<string>, fileType: string, canvas: Canvas) returns (r: Result<Payload>)
    ensures read.None? ==> r == Err(ReadErrorEvent)
    ensures read.Some? && PayloadOf(read.value).None? ==> r == Err(Exception(UndefinedLengthMessage))
    ensures read.Some? && PayloadOf(read.value).Some? ==>
              var base64 := PayloadOf(read.value).value;
              if |base64| <= ApiPayloadLimitBytes then r == Ok(Payload(base64, fileType))
              else r == Compressed(canvas)
  {
    if read.None? {
      return Err(ReadErrorEvent);
    }
    var base64 := PayloadOf(read.value);
    if base64.None? {
      return Err(Exception(UndefinedLengthMessage));
    }
    if |base64.value| > ApiPayloadLimitBytes {
      r := CompressImage(canvas);
      return;
    }
    return Ok(Payload(base64.value, fileType));
  }

  // ---------------------------------------------------------------------
  // CSV text

  /** `cell.replace(/"/g, '""')`: every double quote doubled. */
  function EscapeQuotes(cell: string): string {
    if cell == [] then []
    else (if cell[0] == '"' then "\"\"" else [cell[0]]) + EscapeQuotes(cell[1..])
  }

  /** A cell without double quotes is not changed by the escaping. */
  lemma {:induction false} EscapeQuotesQuoteFree(cell: string)
    ensures '"' !in cell ==> EscapeQuotes(cell) == cell
    decreases |cell|
  {
    if cell != [] && '"' !in cell {
      EscapeQuotesQuoteFree(cell[1..]);
      assert [cell[0]] + cell[1..] == cell;
    }
  }

  /** Escaping at most doubles the length of a cell. */
  lemma {:induction false} EscapeQuotesLength(cell: string)
    ensures |cell| <= |EscapeQuotes(cell)| <= 2 * |cell|
    decreases |cell|
  {
    if cell != [] {
      EscapeQuotesLength(cell[1..]);
    }
  }

  /** A cell as a quoted CSV field (rules 5 and 7 of section 2 of RFC 4180). */
  function QuoteCell(cell: string): (quoted: string)
    ensures |quoted| >= 2 && quoted[0] == '"' && quoted[|quoted| - 1] == '"'
    ensures '"' !in cell ==> quoted == "\"" + cell + "\""
  {
    EscapeQuotesQuoteFree(cell);
    "\"" + EscapeQuotes(cell) + "\""
  }

  /** `parts.join(sep)`. */
  function Join(parts: seq<string>, sep: string): string
    decreases |parts|
  {
    if |parts| == 0 then ""
    else if |parts| == 1 then parts[0]
    else parts[0] + sep + Join(parts[1..], sep)
  }

  function QuotedCells(row: seq<string>): seq<string>
  {
    seq(|row|, i requires 0 <= i < |row| => QuoteCell(row[i]))
  }

  /** One line of the file: the quoted cells joined by commas. */
  function CsvRow(row: seq<string>): string
  {
    Join(QuotedCells(row), ",")
  }

  function CsvRows(data: TableData): seq<string>
  {
    seq(|data|, i requires 0 <= i < |data| => CsvRow(data[i]))
  }

  /** The text `downloadCSV` saves: the lines joined by LF (not the CRLF of
      rule 1 of RFC 4180), with no newline after the last one. */
  function CsvContent(data: TableData): string
  {
    Join(CsvRows(data), "\n")
  }

  /** The quoting of a cell holding a quote character. */
  lemma QuoteExample()
    ensures QuoteCell("a\"b") == "\"a\"\"b\""
  {
    assert EscapeQuotes("a\"b") == "a" + EscapeQuotes("\"b");
    assert EscapeQuotes("\"b") == "\"\"" + EscapeQuotes("b");
    assert EscapeQuotes("b") == "b" + EscapeQuotes("");
  }

  /** The empty table and the table with one empty row give the same text. */
  lemma EmptyTablesCollide()
    ensures CsvContent([]) == CsvContent([[]]) == ""
  {
    assert CsvRows([[]]) == [CsvRow([])];
  }
}

=== FILE: gemini_service.dfy ===
/** services/geminiService.ts: `extractTableData`. The vendor request is not
    modelled; what the code sees of it is the response stream, given here as
    the sequence of its chunks' `text` values (None for `undefined`) plus the
    error the stream raised, if it raised one, after those chunks. `JSON.parse`
    is an abstract function `parse`; it yields None for the JSON `null`. The
    `onProgress` calls are returned, in order, as the list `progress`. */
module GeminiService {
  import opened Types
  import Decimal

  const InitializingMessage: string := "Initializing AI model..."
  const FinalizingMessage: string := "Finalizing structure..."
  const NoDataMessage: string := "No data returned from the model."

  /** The `text` of one stream chunk. */
  type Chunk = Option<string>

  /** The progress message for the n-th chunk. */
  function ChunkMessage(n: nat): string {
    "Receiving data stream (chunk " + Decimal.DecimalString(n) + ")..."
  }

  /** Different chunk numbers give different progress messages. */
  lemma ChunkMessageInjective(m: nat, n: nat)
    ensures ChunkMessage(m) == ChunkMessage(n) ==> m == n
  {
    if ChunkMessage(m) == ChunkMessage(n) {
      var p := "Receiving data stream (chunk ";
      var dm := Decimal.DecimalString(m);
      var dn := Decimal.DecimalString(n);
      assert |dm| == |dn|;
      assert dm == ChunkMessage(m)[|p|..|p| + |dm|];
      assert dn == ChunkMessage(n)[|p|..|p| + |dn|];
      Decimal.DecimalStringInjective(m, n);
    }
  }

  /** `if (text)`: the chunk carries a non-empty text. */
  predicate HasText(chunk: Chunk) {
    chunk.Some? && chunk.value != ""
  }

  /** `fullText` after the given chunks: their texts in arrival order. */
  function Assembled(chunks: seq<Chunk>): string
  {
    if chunks == [] then ""
    else
      var last := chunks[|chunks| - 1];
      Assembled(chunks[..|chunks| - 1]) + (if HasText(last) then last.value else "")
  }

  /** The chunk counts for which a stream message is emitted: the 1-based
      positions n of chunks with text and `n % 3 == 0`, in increasing order. */
  function ProgressChunks(chunks: seq<Chunk>): (ns: seq<nat>)
    ensures forall i :: 0 <= i < |ns| ==> 1 <= ns[i] <= |chunks|
    ensures forall i, j :: 0 <= i < j < |ns| ==> ns[i] < ns[j]
  {
    if chunks == [] then []
    else
      var n := |chunks|;
      ProgressChunks(chunks[..n - 1]) + (if HasText(chunks[n - 1]) && n % 3 == 0 then [n] else [])
  }

  function Messages(ns: seq<nat>): seq<string>
  {
    seq(|ns|, i requires 0 <= i < |ns| => ChunkMessage(ns[i]))
  }

  /** The stream messages emitted while reading the chunks. */
  function StreamMessages(chunks: seq<Chunk>): seq<string>
  {
    Messages(ProgressChunks(chunks))
  }

  /** The whole text is the concatenation of the texts of the two halves of
      the stream: chunks are appended in arrival order and nothing else. */
  lemma {:induction false} AssembledAppend(a: seq<Chunk>, b: seq<Chunk>)
    ensures Assembled(a + b) == Assembled(a) + Assembled(b)
    decreases |b|
  {
    if b == [] {
      assert a + b == a;
    } else {
      var ab := a + b;
      assert ab[..|ab| - 1] == a + b[..|b| - 1];
      assert ab[|ab| - 1] == b[|b| - 1];
      AssembledAppend(a, b[..|b| - 1]);
    }
  }

  /** The text is empty exactly when no chunk carries text. */
  lemma {:induction false} AssembledEmpty(chunks: seq<Chunk>)
    ensures Assembled(chunks) == "" <==> forall i :: 0 <= i < |chunks| ==> !HasText(chunks[i])
    decreases |chunks|
  {
    if chunks != [] {
      var init := chunks[..|chunks| - 1];
      AssembledEmpty(init);
      assert forall i :: 0 <= i < |init| ==> init[i] == chunks[i];
    }
  }

  /** A stream message names chunk n exactly when the n-th chunk has text and
      n is a multiple of 3; `chunkCount` counts every chunk, those without
      text included. */
  lemma {:induction false} ProgressChunksExactly(chunks: seq<Chunk>, n: nat)
    ensures n in ProgressChunks(chunks) <==> 1 <= n <= |chunks| && n % 3 == 0 && HasText(chunks[n - 1])
    decreases |chunks|
  {
    if chunks != [] {
      var init := chunks[..|chunks| - 1];
      ProgressChunksExactly(init, n);
      if 1 <= n < |chunks| {
        assert init[n - 1] == chunks[n - 1];
      }
    }
  }

  /** Concrete cadence: with a textless second chunk the third chunk still
      counts as the third; an empty third chunk emits nothing. */
  lemma CadenceExamples()
    ensures ProgressChunks([Some("a"), None, Some("b")]) == [3]
    ensures ProgressChunks([Some("a"), Some("b"), Some("")]) == []
  {
    var s1: seq<Chunk> := [Some("a"), None, Some("b")];
    assert ProgressChunks(s1[..1]) == [] by { assert s1[..1][..0] == []; }
    assert ProgressChunks(s1[..2]) == [] by { assert s1[..2][..1] == s1[..1]; }
    assert s1[..3][..2] == s1[..2];
    var s2: seq<Chunk> := [Some("a"), Some("b"), Some("")];
    assert ProgressChunks(s2[..1]) == [] by { assert s2[..1][..0] == []; }
    assert ProgressChunks(s2[..2]) == [] by { assert s2[..2][..1] == s2[..1]; }
    assert s2[..3][..2] == s2[..2];
  }

  // ---------------------------------------------------------------------
  // Cleaning the response

  predicate StartsWith(s: string, prefix: string) {
    |prefix| <= |s| && s[..|prefix|] == prefix
  }

  /** `s.replace(/```json\n?|```/g, '')`: scanning left to right, remove each
      "```json" together with one following LF if there is one, and each
      other "```", wherever it stands. */
  function StripFences(s: string): (r: string)
    ensures |r| <= |s|
    decreases |s|
  {
    if s == [] then []
    else if StartsWith(s, "```json\n") then StripFences(s[8..])
    else if StartsWith(s, "```json") then StripFences(s[7..])
    else if StartsWith(s, "```") then StripFences(s[3..])
    else [s[0]] + StripFences(s[1..])
  }

  /** The code points `String.prototype.trim` removes: ECMAScript's
      WhiteSpace and LineTerminator. */
  predicate IsJsWhitespace(c: char) {
    c == '\t' || c == '\n' || c == '\U{000B}' || c == '\U{000C}' || c == '\r' || c == ' ' ||
    c == '\U{00A0}' || c == '\U{1680}' || ('\U{2000}' <= c <= '\U{200A}') ||
    c == '\U{2028}' || c == '\U{2029}' || c == '\U{202F}' || c == '\U{205F}' ||
    c == '\U{3000}' || c == '\U{FEFF}'
  }

  function TrimStart(s: string): (t: string)
    ensures |t| <= |s| && t == s[|s| - |t|..]
    ensures forall i :: 0 <= i < |s| - |t| ==> IsJsWhitespace(s[i])
    ensures t == [] || !IsJsWhitespace(t[0])
    decreases |s|
  {
    if s != [] && IsJsWhitespace(s[0]) then TrimStart(s[1..]) else s
  }

  function TrimEnd(s: string): (t: string)
    ensures |t| <= |s| && t == s[..|t|]
    ensures forall i :: |t| <= i < |s| ==> IsJsWhitespace(s[i])
    ensures t == [] || !IsJsWhitespace(t[|t| - 1])
    decreases |s|
  {
    if s != [] && IsJsWhitespace(s[|s| - 1]) then TrimEnd(s[..|s| - 1]) else s
  }

  /** s[..i] and s[j..] are white space. */
  predicate WhitespaceMargins(s: string, i: int, j: int) {
    0 <= i <= j <= |s| &&
    (forall k :: 0 <= k < i ==> IsJsWhitespace(s[k])) &&
    (forall k :: j <= k < |s| ==> IsJsWhitespace(s[k]))
  }

  /** t neither starts nor ends with white space. */
  predicate NoWhitespaceEnds(t: string) {
    t == [] || (!IsJsWhitespace(t[0]) && !IsJsWhitespace(t[|t| - 1]))
  }

  /** `s.trim()`: the longest run of s between whitespace margins. */
  function Trim(s: string): (t: string)
    ensures exists i, j :: WhitespaceMargins(s, i, j) && t == s[i..j]
    ensures NoWhitespaceEnds(t)
  {
    TrimSlice(s);
    TrimEnd(TrimStart(s))
  }

  /** Trimming both ends keeps a slice of the text whose margins are white
      space. */
  lemma TrimSlice(s: string)
    ensures exists i, j :: WhitespaceMargins(s, i, j) && TrimEnd(TrimStart(s)) == s[i..j]
    ensures NoWhitespaceEnds(TrimEnd(TrimStart(s)))
  {
    var front := TrimStart(s);
    var i := |s| - |front|;
    var t := TrimEnd(front);
    assert front == s[i..];
    assert t == front[..|t|];
    forall k | i + |t| <= k < |s|
      ensures IsJsWhitespace(s[k])
    {
      assert s[k] == front[k - i];
    }
    if t != [] {
      assert t[0] == front[0];
    }
    assert WhitespaceMargins(s, i, i + |t|) && t == s[i..i + |t|];
  }

  /** The text handed to `JSON.parse`. */
  function CleanResponse(fullText: string): string {
    Trim(StripFences(fullText))
  }

  /** A character that cannot open a fence is kept. */
  lemma StripPlainChar(s: string)
    requires s != [] && s[0] != '`'
    ensures StripFences(s) == [s[0]] + StripFences(s[1..])
  {
    assert !StartsWith(s, "```") by {
      if StartsWith(s, "```") {
        assert false;
      }
    }
    assert !StartsWith(s, "```json") by {
      if StartsWith(s, "```json") {
        assert false;
      }
    }
    assert !StartsWith(s, "```json\n") by {
      if StartsWith(s, "```json\n") {
        StartsWithLonger(s, "```json", "\n");
        assert false;
      }
    }
  }

  /** A text without backticks is changed only by the trim. */
  lemma {:induction false} NoBacktickNoStrip(s: string)
    requires '`' !in s
    ensures StripFences(s) == s
    ensures CleanResponse(s) == Trim(s)
    decreases |s|
  {
    if s != [] {
      StripPlainChar(s);
      NoBacktickNoStrip(s[1..]);
      assert [s[0]] + s[1..] == s;
    }
  }

  /** Text free of backticks passes through the stripping unchanged, up to
      the point where a fence may start. */
  lemma {:induction false} StripKeepsPlainPrefix(a: string, b: string)
    requires '`' !in a
    ensures StripFences(a + b) == a + StripFences(b)
    decreases |a|
  {
    if a != [] {
      var s := a + b;
      assert s[0] == a[0] != '`' && s[1..] == a[1..] + b;
      StripPlainChar(s);
      StripKeepsPlainPrefix(a[1..], b);
      assert [a[0]] + a[1..] == a;
    } else {
      assert a + b == b;
    }
  }

  lemma StartsWithLonger(s: string, p: string, q: string)
    requires StartsWith(s, p + q)
    ensures StartsWith(s, p)
  {
    assert s[..|p|] == s[..|p + q|][..|p|];
  }

  /** A bare fence not followed by "json" is removed on its own. */
  lemma StripAfterBareFence(b: string)
    requires !StartsWith(b, "json")
    ensures StripFences("```" + b) == StripFences(b)
  {
    var s := "```" + b;
    assert s[..3] == "```";
    assert s[3..] == b;
    assert |s| >= 7 ==> s[..7] == "```" + b[..4];
    assert !StartsWith(s, "```json") by {
      if StartsWith(s, "```json") {
        assert false;
      }
    }
    assert !StartsWith(s, "```json\n") by {
      if StartsWith(s, "```json\n") {
        StartsWithLonger(s, "```json", "\n");
        assert false;
      }
    }
  }

  /** The stripping is global: a fence in the middle of the text, such as
      inside a cell's string, is removed too, not only fences at the ends. */
  lemma FenceRemovedAnywhere(a: string, b: string)
    requires '`' !in a && '`' !in b
    requires !StartsWith(b, "json")
    ensures StripFences(a + "```" + b) == a + b
  {
    var fenced := "```" + b;
    assert a + "```" + b == a + fenced;
    StripKeepsPlainPrefix(a, fenced);
    assert StripFences(a + fenced) == a + StripFences(fenced);
    StripAfterBareFence(b);
    assert StripFences(fenced) == StripFences(b);
    NoBacktickNoStrip(b);
    assert StripFences(b) == b;
  }

  /** An opening "```json" fence with its line break is removed. */
  lemma StripJsonFence(b: string)
    ensures StripFences("```json\n" + b) == StripFences(b)
  {
    var s := "```json\n" + b;
    assert s[..8] == "```json\n";
    assert s[8..] == b;
  }

  lemma FencedStrip(body: string)
    requires '`' !in body
    ensures StripFences("```json\n" + body + "```") == body
  {
    assert "```json\n" + body + "```" == "```json\n" + (body + "```");
    StripJsonFence(body + "```");
    StripKeepsPlainPrefix(body, "```");
    assert "```" + "" == "```";
    StripAfterBareFence("");
    assert body + [] == body;
  }

  lemma TrimNewline(json: string)
    requires json != [] && !IsJsWhitespace(json[0]) && !IsJsWhitespace(json[|json| - 1])
    ensures Trim(json + "\n") == json
  {
    var body := json + "\n";
    assert TrimStart(body) == body;
    assert body[..|body| - 1] == json;
    assert TrimEnd(body) == TrimEnd(json);
  }

  /** A response wrapped in a "```json" fence cleans to its JSON body. */
  lemma FencedExample()
    ensures CleanResponse("```json\n[[\"x\"]]\n```") == "[[\"x\"]]"
  {
    var json := "[[\"x\"]]";
    assert "```json\n[[\"x\"]]\n```" == "```json\n" + (json + "\n") + "```";
    FencedStrip(json + "\n");
    TrimNewline(json);
  }

  // ---------------------------------------------------------------------
  // The extraction

  /** Reading one more chunk: its text is appended, and a message for it is
      emitted when it has text and its number is a multiple of 3. */
  lemma PrefixStep(chunks: seq<Chunk>, k: nat)
    requires k < |chunks|
    ensures Assembled(chunks[..k + 1]) == Assembled(chunks[..k]) + (if HasText(chunks[k]) then chunks[k].value else "")
    ensures StreamMessages(chunks[..k + 1]) ==
              StreamMessages(chunks[..k]) + (if HasText(chunks[k]) && (k + 1) % 3 == 0 then [ChunkMessage(k + 1)] else [])
  {
    var next := chunks[..k + 1];
    assert next[..k] == chunks[..k];
    assert next[k] == chunks[k];
    var before := ProgressChunks(chunks[..k]);
    var added := if HasText(chunks[k]) && (k + 1) % 3 == 0 then [k + 1] else [];
    assert ProgressChunks(next) == before + added;
    assert Messages(before + added) == Messages(before) + Messages(added);
  }


  /** `extractTableData` from the moment the stream is open. */
  method ExtractTableData(chunks: seq<Chunk>, streamError: Option<Exception>, parse: string -> Result<Option<TableData>>)
    returns (r: Result<Option<TableData>>, progress: seq<string>)
    ensures streamError.Some? ==> r == Err(streamError.value)
    ensures streamError.None? && Assembled(chunks) == "" ==> r == Err(Exception(NoDataMessage))
    ensures streamError.None? && Assembled(chunks) != "" ==> r == parse(CleanResponse(Assembled(chunks)))
    ensures progress == [InitializingMessage] + StreamMessages(chunks)
                        + (if streamError.None? then [FinalizingMessage] else [])
  {
    progress := [InitializingMessage];
    var fullText := "";
    var chunkCount := 0;
    while chunkCount < |chunks|
      invariant 0 <= chunkCount <= |chunks|
      invariant fullText == Assembled(chunks[..chunkCount])
      invariant progress == [InitializingMessage] + StreamMessages(chunks[..chunkCount])
    {
      var chunk := chunks[chunkCount];
      PrefixStep(chunks, chunkCount);
      chunkCount := chunkCount + 1;
      if HasText(chunk) {
        fullText := fullText + chunk.value;
        if chunkCount % 3 == 0 {
          progress := progress + [ChunkMessage(chunkCount)];
        }
      }
    }
    assert chunks[..chunkCount] == chunks;
    if streamError.Some? {
      return Err(streamError.value), progress;
    }
    progress := progress + [FinalizingMessage];
    if fullText != "" {
      var cleanedText := CleanResponse(fullText);
      r := parse(cleanedText);
    } else {
      r := Err(Exception(NoDataMessage));
    }
  }
}

=== FILE: image_uploader.dfy ===
/** components/ImageUploader.tsx: the drop zone. Its state is the three React
    state cells `dragActive`, `preview` and `error`; the handlers update them
    and hand an accepted file to `onImageSelected`, which the model returns
    as the handler's result (None when it is not called). */
module ImageUploader {
  import opened Types
  import opened Constants
  import Decimal

  const UnsupportedFormatMessage: string := "Unsupported file format. Please upload PNG, JPEG, or WebP."

  /** `MAX_FILE_SIZE_MB * 1024 * 1024` bytes. */
  const MaxFileSizeBytes: nat := MaxFileSizeMb * 1024 * 1024

  /** `File size exceeds ${MAX_FILE_SIZE_MB}MB limit.` */
  function FileTooLargeMessage(): string {
    "File size exceeds " + Decimal.DecimalString(MaxFileSizeMb) + "MB limit."
  }

  /** The error `handleFiles` leaves for a file; None when the file is
      accepted. The format is checked before the size. */
  function ValidationError(file: File): (error: Option<string>)
    ensures error.None? <==> file.fileType in SupportedFormats && file.size <= MaxFileSizeBytes
    ensures file.fileType !in SupportedFormats ==> error == Some(UnsupportedFormatMessage)
    ensures file.fileType in SupportedFormats && file.size > MaxFileSizeBytes ==> error == Some(FileTooLargeMessage())
  {
    if file.fileType !in SupportedFormats then Some(UnsupportedFormatMessage)
    else if file.size > MaxFileSizeBytes then Some(FileTooLargeMessage())
    else None
  }

  /** The size message reads "File size exceeds 50MB limit.". */
  lemma FileTooLargeMessageText()
    ensures FileTooLargeMessage() == "File size exceeds 50MB limit."
  {
    assert Decimal.DecimalString(5) == "5";
    assert Decimal.DecimalString(0) == "0";
    assert Decimal.DecimalString(50) == Decimal.DecimalString(5) + "0";
  }

  /** The size cap is inclusive: an allowed file of exactly 50 MiB
      (52,428,800 bytes) is accepted, one byte more is refused. */
  lemma SizeBoundary(fileType: string)
    requires fileType in SupportedFormats
    ensures ValidationError(File(fileType, 52428800)) == None
    ensures ValidationError(File(fileType, 52428801)) == Some(FileTooLargeMessage())
  {
  }

  /** A file both of the wrong type and too large reports the format. */
  lemma FormatReportedFirst(file: File)
    requires file.fileType !in SupportedFormats && file.size > MaxFileSizeBytes
    ensures ValidationError(file) == Some(UnsupportedFormatMessage)
  {
  }

  class Uploader {
    var dragActive: bool
    var preview: Option<string>
    var error: Option<string>

    /** The initial state of the three state cells. */
    constructor ()
      ensures !dragActive && preview == None && error == None
    {
      dragActive := false;
      preview := None;
      error := None;
    }

    /** `handleFiles`: validate, and on success call `onImageSelected` once
        with the file. The preview is set later, when the FileReader has
        loaded (`OnPreviewLoaded`). */
    method HandleFiles(file: File) returns (selected: Option<File>)
      modifies this`error
      ensures error == ValidationError(file)
      ensures selected == (if error.None? then Some(file) else None)
    {
      error := None;
      if file.fileType !in SupportedFormats {
        error := Some(UnsupportedFormatMessage);
        return None;
      }
      if file.size > MaxFileSizeBytes {
        error := Some(FileTooLargeMessage());
        return None;
      }
      selected := Some(file);
    }

    /** The preview reader's `onload`: show the file's data URL. */
    method OnPreviewLoaded(dataUrl: string)
      modifies this`preview
      ensures preview == Some(dataUrl)
    {
      preview := Some(dataUrl);
    }

    /** `handleDrag`: entering or moving over the zone activates it, leaving
        deactivates it, any other event leaves it as it was. */
    method HandleDrag(eventType: string)
      modifies this`dragActive
      ensures eventType == "dragenter" || eventType == "dragover" ==> dragActive
      ensures eventType == "dragleave" ==> !dragActive
      ensures eventType !in {"dragenter", "dragover", "dragleave"} ==> dragActive == old(dragActive)
    {
      if eventType == "dragenter" || eventType == "dragover" {
        dragActive := true;
      } else if eventType == "dragleave" {
        dragActive := false;
      }
    }

    /** `handleDrop`: the zone always ends inactive; only the first dropped
        file is handled, and with no file nothing is called. */
    method HandleDrop(files: seq<File>) returns (selected: Option<File>)
      modifies this`dragActive, this`error
      ensures !dragActive
      ensures files == [] ==> selected == None && error == old(error)
      ensures files != [] ==> error == ValidationError(files[0])
      ensures files != [] ==> selected == (if error.None? then Some(files[0]) else None)
    {
      dragActive := false;
      selected := None;
      if |files| > 0 {
        selected := HandleFiles(files[0]);
      }
    }

    /** `handleChange`: the file picker's first file, if any, is handled. */
    method HandleChange(files: seq<File>) returns (selected: Option<File>)
      modifies this`error
      ensures files == [] ==> selected == None && error == old(error)
      ensures files != [] ==> error == ValidationError(files[0])
      ensures files != [] ==> selected == (if error.None? then Some(files[0]) else None)
    {
      selected := None;
      if |files| > 0 {
        selected := HandleFiles(files[0]);
      }
    }

    /** `clearImage`: drop the preview. */
    method ClearImage()
      modifies this`preview
      ensures preview == None
    {
      preview := None;
    }
  }
}

=== FILE: quality_drift.dfy ===
/** The quality loop of `compressImage` as written, on IEEE 754 binary64
    numbers: `quality` starts at the double nearest 0.9 and `quality -= 0.1`
    rounds each difference to the nearest double. The drift lets the loop
    pass its `quality > 0.5` test a fifth time and encode at about 0.4,
    below the floor the code means to keep. FileHelpers models the loop as
    intended, on exact tenths. */
module QualityDrift {

  /** A positive binary64 value sig * 2^exp; normal when
      2^52 <= sig < 2^53. */
  datatype Binary64 = Binary64(sig: nat, exp: int)

  const TwoTo52: nat := 0x10_0000_0000_0000
  const TwoTo53: nat := 0x20_0000_0000_0000

  function Pow2(k: nat): (p: nat)
    ensures p >= 1
  {
    if k == 0 then 1 else 2 * Pow2(k - 1)
  }

  predicate IsNormal(d: Binary64) {
    TwoTo52 <= d.sig < TwoTo53
  }

  /** The doubles the source writes as 0.9, 0.1 and 0.5. */
  const NineTenths: Binary64 := Binary64(0x1C_CCCC_CCCC_CCCD, -53)
  const OneTenth: Binary64 := Binary64(0x19_9999_9999_999A, -56)
  const OneHalf: Binary64 := Binary64(TwoTo52, -53)

  /** Both significands scaled to the smaller exponent, which is exact. */
  function AlignedSigs(a: Binary64, b: Binary64): (nat, nat)
  {
    if a.exp >= b.exp then (a.sig * Pow2(a.exp - b.exp), b.sig)
    else (a.sig, b.sig * Pow2(b.exp - a.exp))
  }

  function MinExp(a: Binary64, b: Binary64): int {
    if a.exp <= b.exp then a.exp else b.exp
  }

  /** `a > b` on the exact values. */
  predicate GreaterThan(a: Binary64, b: Binary64) {
    AlignedSigs(a, b).0 > AlignedSigs(a, b).1
  }

  /** The number of low bits to drop so that m fits in 53 bits. */
  function ExcessBits(m: nat): nat
    decreases m
  {
    if m < TwoTo53 then 0 else 1 + ExcessBits(m / 2)
  }

  /** m * 2^e rounded to 53 significant bits, ties to even. */
  function RoundToNearest(m: nat, e: int): Binary64
    requires m > 0
    decreases if m < TwoTo52 then TwoTo52 - m else 0
  {
    if m < TwoTo52 then RoundToNearest(2 * m, e - 1)
    else if m < TwoTo53 then Binary64(m, e)
    else
      var k := ExcessBits(m);
      var q := m / Pow2(k);
      var r := m % Pow2(k);
      var half := Pow2(k - 1);
      var rounded := if r > half || (r == half && q % 2 == 1) then q + 1 else q;
      if rounded == TwoTo53 then Binary64(TwoTo52, e + k + 1) else Binary64(rounded, e + k)
  }

  /** `a - b` for a > b, rounded as binary64 subtraction rounds. */
  function Subtract(a: Binary64, b: Binary64): Binary64
    requires GreaterThan(a, b)
  {
    var (x, y) := AlignedSigs(a, b);
    RoundToNearest(x - y, MinExp(a, b))
  }

  /** The quality the loop as written holds after `steps` decrements. The
      `else previous` branch stands for nothing in the source, where
      `quality -= 0.1` always subtracts; it only makes the function total, and
      under the loop's `quality > 0.5` guard it is never taken. */
  function QualityAfter(steps: nat): Binary64
    decreases steps
  {
    if steps == 0 then NineTenths
    else
      var previous := QualityAfter(steps - 1);
      if GreaterThan(previous, OneTenth) then Subtract(previous, OneTenth) else previous
  }

  /** The loop as written, counting re-encodes from `steps` on: it goes on
      while the payload is oversized at the current quality and the quality
      is above 0.5. `fuel` bounds the recursion; the run below stops long
      before it is used up. */
  function ReencodesAsWritten(oversized: Binary64 -> bool, steps: nat, fuel: nat): nat
    decreases fuel
  {
    var quality := QualityAfter(steps);
    if fuel > 0 && oversized(quality) && GreaterThan(quality, OneHalf) then
      ReencodesAsWritten(oversized, steps + 1, fuel - 1)
    else steps
  }

  /** The quality after 1 decrement: 0.8. */
  lemma QualityAfter1()
    ensures QualityAfter(1) == Binary64(0x19_9999_9999_999A, -53)
  {
    var m: nat := 0xCC_CCCC_CCCC_CCCE;
    assert Pow2(3) == 8 && Pow2(2) == 4 && Pow2(1) == 2;
    assert AlignedSigs(NineTenths, OneTenth) == (NineTenths.sig * 8, OneTenth.sig);
    assert NineTenths.sig * 8 - OneTenth.sig == m;
    assert ExcessBits(m) == 3 by { assert ExcessBits(m / 2) == 2 by { assert ExcessBits(m / 4) == 1 by { assert ExcessBits(m / 8) == 0; } } }
  }

  /** The quality after 2 decrements: 0.7000000000000001. */
  lemma QualityAfter2()
    ensures QualityAfter(2) == Binary64(0x16_6666_6666_6667, -53)
  {
    QualityAfter1();
    var m: nat := 0xB3_3333_3333_3336;
    assert Pow2(3) == 8 && Pow2(2) == 4 && Pow2(1) == 2;
    assert AlignedSigs(QualityAfter(1), OneTenth) == (QualityAfter(1).sig * 8, OneTenth.sig);
    assert QualityAfter(1).sig * 8 - OneTenth.sig == m;
    assert ExcessBits(m) == 3 by { assert ExcessBits(m / 2) == 2 by { assert ExcessBits(m / 4) == 1 by { assert ExcessBits(m / 8) == 0; } } }
  }

  /** The quality after 3 decrements: 0.6000000000000001. */
  lemma QualityAfter3()
    ensures QualityAfter(3) == Binary64(0x13_3333_3333_3334, -53)
  {
    QualityAfter2();
    var m: nat := 0x99_9999_9999_999E;
    assert Pow2(3) == 8 && Pow2(2) == 4 && Pow2(1) == 2;
    assert AlignedSigs(QualityAfter(2), OneTenth) == (QualityAfter(2).sig * 8, OneTenth.sig);
    assert QualityAfter(2).sig * 8 - OneTenth.sig == m;
    assert ExcessBits(m) == 3 by { assert ExcessBits(m / 2) == 2 by { assert ExcessBits(m / 4) == 1 by { assert ExcessBits(m / 8) == 0; } } }
  }

  /** The quality after 4 decrements: 0.5000000000000001. */
  lemma QualityAfter4()
    ensures QualityAfter(4) == Binary64(0x10_0000_0000_0001, -53)
  {
    QualityAfter3();
    var m: nat := 0x80_0000_0000_0006;
    assert Pow2(3) == 8 && Pow2(2) == 4 && Pow2(1) == 2;
    assert AlignedSigs(QualityAfter(3), OneTenth) == (QualityAfter(3).sig * 8, OneTenth.sig);
    assert QualityAfter(3).sig * 8 - OneTenth.sig == m;
    assert ExcessBits(m) == 3 by { assert ExcessBits(m / 2) == 2 by { assert ExcessBits(m / 4) == 1 by { assert ExcessBits(m / 8) == 0; } } }
  }

  /** The quality after 5 decrements: 0.40000000000000013. */
  lemma QualityAfter5()
    ensures QualityAfter(5) == Binary64(0x19_9999_9999_999C, -54)
  {
    QualityAfter4();
    var m: nat := 0x66_6666_6666_666E;
    assert Pow2(3) == 8 && Pow2(2) == 4 && Pow2(1) == 2;
    assert AlignedSigs(QualityAfter(4), OneTenth) == (QualityAfter(4).sig * 8, OneTenth.sig);
    assert QualityAfter(4).sig * 8 - OneTenth.sig == m;
    assert ExcessBits(m) == 2 by { assert ExcessBits(m / 2) == 1 by { assert ExcessBits(m / 4) == 0; } }
    assert m / Pow2(2) == 0x19_9999_9999_999B && m % Pow2(2) == Pow2(1);
  }

  /** The fourth decrement leaves the quality just above 0.5, so the test
      passes once more; the fifth leaves it below 0.5. */
  lemma FourthStepAboveHalf()
    ensures GreaterThan(QualityAfter(4), OneHalf)
    ensures GreaterThan(OneHalf, QualityAfter(5))
  {
    QualityAfter4();
    QualityAfter5();
    assert Pow2(0) == 1 && Pow2(1) == 2;
  }

  /** With an image that never fits, the loop as written re-encodes five
      times, the last time at a quality below 0.5, against the intent to
      stop at 0.5 after at most four re-encodes. */
  lemma FifthStepBelowFloor()
    ensures ReencodesAsWritten(_ => true, 0, 10) == 5
    ensures GreaterThan(OneHalf, QualityAfter(5))
  {
    var never: Binary64 -> bool := _ => true;
    FourthStepAboveHalf();
    assert ReencodesAsWritten(never, 5, 5) == 5;
    assert ReencodesAsWritten(never, 4, 6) == 5;
    QualityAfter3();
    assert GreaterThan(QualityAfter(3), OneHalf) by { assert Pow2(0) == 1; }
    assert ReencodesAsWritten(never, 3, 7) == 5;
    QualityAfter2();
    assert GreaterThan(QualityAfter(2), OneHalf) by { assert Pow2(0) == 1; }
    assert ReencodesAsWritten(never, 2, 8) == 5;
    QualityAfter1();
    assert GreaterThan(QualityAfter(1), OneHalf) by { assert Pow2(0) == 1; }
    assert ReencodesAsWritten(never, 1, 9) == 5;
    assert GreaterThan(QualityAfter(0), OneHalf) by { assert Pow2(0) == 1; }
  }
}

=== FILE: rfc4180.dfy ===
/** A reader for CSV text made only of quoted fields (section 2 of RFC 4180,
    rules 5 to 7), with records separated by LF as `downloadCSV` writes them.
    It is an independent definition against which the writer in FileHelpers
    is proved: reading the written text gives back every cell. */
module Rfc4180 {
  import opened Types
  import opened FileHelpers

  /** Reads the rest of a quoted field, after its opening quote: a doubled
      quote stands for one quote, a single quote closes the field. Returns the
      cell and the text after the closing quote; None when the field is not
      closed. */
  function ReadQuoted(s: string): (r: Option<(string, string)>)
    ensures r.Some? ==> |r.value.1| < |s|
    decreases |s|
  {
    if s == [] then None
    else if s[0] == '"' then
      if |s| >= 2 && s[1] == '"' then
        match ReadQuoted(s[2..])
        case None => None
        case Some((cell, rest)) => Some(("\"" + cell, rest))
      else Some(([], s[1..]))
    else
      match ReadQuoted(s[1..])
      case None => None
      case Some((cell, rest)) => Some(([s[0]] + cell, rest))
  }

  /** Reads comma-separated quoted fields; returns them and the text after
      the last one. */
  function ReadFields(s: string): (r: Option<(seq<string>, string)>)
    ensures r.Some? ==> |r.value.1| < |s|
    decreases |s|
  {
    if s != [] && s[0] == '"' then
      match ReadQuoted(s[1..])
      case None => None
      case Some((cell, rest)) =>
        if rest != [] && rest[0] == ',' then
          match ReadFields(rest[1..])
          case None => None
          case Some((cells, rest')) => Some(([cell] + cells, rest'))
        else Some(([cell], rest))
    else None
  }

  /** Reads one record: an empty line is a record with no fields, the way
      `downloadCSV` writes an empty row (RFC 4180's grammar would read it as
      one empty field). */
  function ReadRecord(s: string): (r: Option<(seq<string>, string)>)
    ensures r.Some? ==> |r.value.1| <= |s|
  {
    if s == [] || s[0] == '\n' then Some(([], s)) else ReadFields(s)
  }

  /** Reads a whole text: records separated by LF. */
  function ReadTable(s: string): Option<TableData>
    decreases |s|
  {
    match ReadRecord(s)
    case None => None
    case Some((row, rest)) =>
      if rest == [] then Some([row])
      else if rest[0] == '\n' then
        match ReadTable(rest[1..])
        case None => None
        case Some(rows) => Some([row] + rows)
      else None
  }

  /** A doubled quote inside a field reads as one quote. */
  lemma ReadDoubledQuote(tail: string, cell: string, rest: string)
    requires ReadQuoted(tail) == Some((cell, rest))
    ensures ReadQuoted("\"\"" + tail) == Some(("\"" + cell, rest))
  {
    var s := "\"\"" + tail;
    assert s[0] == '"' && s[1] == '"' && s[2..] == tail;
  }

  /** Any other character inside a field reads as itself. */
  lemma ReadPlainChar(c: char, tail: string, cell: string, rest: string)
    requires c != '"'
    requires ReadQuoted(tail) == Some((cell, rest))
    ensures ReadQuoted([c] + tail) == Some(([c] + cell, rest))
  {
    var s := [c] + tail;
    assert s[0] == c && s[1..] == tail;
  }

  lemma {:induction false} ReadEscaped(cell: string, rest: string)
    requires rest == [] || rest[0] != '"'
    ensures ReadQuoted(EscapeQuotes(cell) + "\"" + rest) == Some((cell, rest))
    decreases |cell|
  {
    if cell == [] {
      var s := "\"" + rest;
      assert EscapeQuotes(cell) + "\"" + rest == s;
      assert s[0] == '"' && s[1..] == rest;
    } else {
      ReadEscaped(cell[1..], rest);
      ReadEscapedStep(cell, rest);
    }
  }

  /** The inductive step of ReadEscaped: one more cell character. */
  lemma ReadEscapedStep(cell: string, rest: string)
    requires cell != []
    requires ReadQuoted(EscapeQuotes(cell[1..]) + "\"" + rest) == Some((cell[1..], rest))
    ensures ReadQuoted(EscapeQuotes(cell) + "\"" + rest) == Some((cell, rest))
  {
    var head := if cell[0] == '"' then "\"\"" else [cell[0]];
    var escaped := EscapeQuotes(cell[1..]);
    var tail := escaped + "\"" + rest;
    assert EscapeQuotes(cell) == head + escaped;
    assert EscapeQuotes(cell) + "\"" + rest == head + tail;
    assert [cell[0]] + cell[1..] == cell;
    if cell[0] == '"' {
      ReadDoubledQuote(tail, cell[1..], rest);
    } else {
      ReadPlainChar(cell[0], tail, cell[1..], rest);
    }
  }

  lemma QuotedCellsTail(row: seq<string>)
    requires |row| >= 1
    ensures QuotedCells(row)[0] == QuoteCell(row[0])
    ensures QuotedCells(row)[1..] == QuotedCells(row[1..])
  {
  }

  /** A line of one cell is that cell quoted. */
  lemma CsvRowSingle(row: seq<string>)
    requires |row| == 1
    ensures CsvRow(row) == QuoteCell(row[0])
  {
    QuotedCellsTail(row);
  }

  /** A line of several cells is the first cell quoted, a comma, and the
      line of the others. */
  lemma CsvRowCons(row: seq<string>)
    requires |row| >= 2
    ensures CsvRow(row) == QuoteCell(row[0]) + "," + CsvRow(row[1..])
  {
    QuotedCellsTail(row);
  }

  /** A quoted cell is read back, and the reader stops right after it. */
  lemma ReadQuotedCell(cell: string, after: string)
    requires after == [] || after[0] != '"'
    ensures QuoteCell(cell) + after != [] && (QuoteCell(cell) + after)[0] == '"'
    ensures ReadQuoted((QuoteCell(cell) + after)[1..]) == Some((cell, after))
  {
    var s := QuoteCell(cell) + after;
    assert s == "\"" + (EscapeQuotes(cell) + "\"" + after);
    assert s[1..] == EscapeQuotes(cell) + "\"" + after;
    ReadEscaped(cell, after);
  }

  /** A row of k >= 1 cells is read back as exactly those k cells. */
  lemma {:induction false} ReadRow(row: seq<string>, rest: string)
    requires |row| >= 1
    requires rest == [] || rest[0] == '\n'
    ensures ReadFields(CsvRow(row) + rest) == Some((row, rest))
    decreases |row|
  {
    var cell := row[0];
    if |row| == 1 {
      CsvRowSingle(row);
      ReadQuotedCell(cell, rest);
      assert row == [cell];
    } else {
      ReadRow(row[1..], rest);
      ReadRowStep(row, rest);
    }
  }

  /** The inductive step of ReadRow: one more cell in front. */
  lemma ReadRowStep(row: seq<string>, rest: string)
    requires |row| >= 2
    requires ReadFields(CsvRow(row[1..]) + rest) == Some((row[1..], rest))
    ensures ReadFields(CsvRow(row) + rest) == Some((row, rest))
  {
    var cell := row[0];
    CsvRowCons(row);
    var after := "," + (CsvRow(row[1..]) + rest);
    var s := CsvRow(row) + rest;
    assert s == QuoteCell(cell) + after;
    ReadQuotedCell(cell, after);
    assert s[0] == '"' && ReadQuoted(s[1..]) == Some((cell, after));
    assert after[0] == ',' && after[1..] == CsvRow(row[1..]) + rest;
    assert [cell] + row[1..] == row;
  }

  lemma ReadRowRecord(row: seq<string>, rest: string)
    requires rest == [] || rest[0] == '\n'
    ensures ReadRecord(CsvRow(row) + rest) == Some((row, rest))
  {
    if row == [] {
      assert CsvRow(row) + rest == rest;
    } else {
      ReadRow(row, rest);
      QuotedCellsTail(row);
      assert (CsvRow(row) + rest)[0] == '"';
    }
  }

  /** Round trip: reading the CSV text of any table with at least one row
      gives back that table, cell for cell, whatever commas, quotes or line
      breaks the cells hold. (The empty table is written as the text of
      `[[]]`; see FileHelpers.EmptyTablesCollide.) */
  lemma {:induction false} CsvRoundTrip(data: TableData)
    requires |data| >= 1
    ensures ReadTable(CsvContent(data)) == Some(data)
    decreases |data|
  {
    var rows := CsvRows(data);
    if |data| == 1 {
      assert rows == [CsvRow(data[0])];
      assert CsvContent(data) == CsvRow(data[0]) + "";
      ReadRowRecord(data[0], "");
      assert data == [data[0]];
    } else {
      assert rows[1..] == CsvRows(data[1..]);
      var after := "\n" + CsvContent(data[1..]);
      assert CsvContent(data) == CsvRow(data[0]) + after;
      ReadRowRecord(data[0], after);
      assert after[1..] == CsvContent(data[1..]);
      CsvRoundTrip(data[1..]);
      assert [data[0]] + data[1..] == data;
    }
  }

  /** Distinct tables with at least one row give distinct CSV texts. */
  lemma CsvContentInjective(a: TableData, b: TableData)
    requires |a| >= 1 && |b| >= 1
    requires CsvContent(a) == CsvContent(b)
    ensures a == b
  {
    CsvRoundTrip(a);
    CsvRoundTrip(b);
  }
}

=== FILE: table_preview.dfy ===
/** components/TablePreview.tsx: the editable grid. Row 0 is rendered as the
    header inputs and the other rows as body inputs; every input edits one
    cell through `handleCellChange`, which builds a new table and hands it to
    `onDataChange`. Tables are values here, so the caller's table can never be
    changed by an edit: the old and the new table are simply two values. */
module TablePreview {
  import opened Types

  /** `data[0]`. */
  function Headers(data: TableData): seq<string>
    requires |data| > 0
  {
    data[0]
  }

  /** `data.slice(1)`. */
  function Rows(data: TableData): TableData
    requires |data| > 0
  {
    data[1..]
  }

  /** The component renders anything at all (an empty table renders null). */
  predicate Renders(data: TableData) {
    |data| > 0
  }

  /** The coordinates some rendered input passes to `handleCellChange`:
      `(0, c)` for the c-th header, `(i + 1, c)` for the c-th cell of the i-th
      body row. */
  predicate IsEditSite(data: TableData, rowIndex: nat, colIndex: nat) {
    Renders(data) &&
    ((rowIndex == 0 && colIndex < |Headers(data)|) ||
     (exists i :: 0 <= i < |Rows(data)| && rowIndex == i + 1 && colIndex < |Rows(data)[i]|))
  }

  /** The inputs address exactly the cells of the table: every edit lands on
      an existing cell, and every cell has its input. */
  lemma EditSitesAreCells(data: TableData, rowIndex: nat, colIndex: nat)
    ensures IsEditSite(data, rowIndex, colIndex) <==> rowIndex < |data| && colIndex < |data[rowIndex]|
  {
    if rowIndex >= 1 && rowIndex < |data| && colIndex < |data[rowIndex]| {
      assert Rows(data)[rowIndex - 1] == data[rowIndex];
    }
  }

  /** The header/body split loses nothing. */
  lemma HeaderRowSplit(data: TableData)
    requires Renders(data)
    ensures [Headers(data)] + Rows(data) == data
    ensures |Rows(data)| == |data| - 1
  {
  }

  /** `handleCellChange(rowIndex, colIndex, value)`: a copy of the table in
      which the one addressed cell holds `value`. Rows other than the edited
      one are the caller's own rows. The view only issues edits at existing
      cells (EditSitesAreCells), so writing past the end of a row, which
      JavaScript would turn into a sparse array, does not arise. */
  function HandleCellChange(data: TableData, rowIndex: nat, colIndex: nat, value: string): (newData: TableData)
    requires rowIndex < |data| ==> colIndex < |data[rowIndex]|
    ensures |newData| == |data|
    ensures rowIndex < |data| ==> |newData[rowIndex]| == |data[rowIndex]| && newData[rowIndex][colIndex] == value
    ensures rowIndex < |data| ==>
              forall c :: 0 <= c < |data[rowIndex]| && c != colIndex ==> newData[rowIndex][c] == data[rowIndex][c]
    ensures forall r :: 0 <= r < |data| && r != rowIndex ==> newData[r] == data[r]
    ensures rowIndex >= |data| ==> newData == data
  {
    seq(|data|, r requires 0 <= r < |data| => if r == rowIndex then data[r][colIndex := value] else data[r])
  }

  /** Writing a cell's current value back leaves the table as it was. */
  lemma RewriteIsIdentity(data: TableData, rowIndex: nat, colIndex: nat)
    requires rowIndex < |data| && colIndex < |data[rowIndex]|
    ensures HandleCellChange(data, rowIndex, colIndex, data[rowIndex][colIndex]) == data
  {
    var newData := HandleCellChange(data, rowIndex, colIndex, data[rowIndex][colIndex]);
    assert newData[rowIndex] == data[rowIndex];
  }

  /** Of two edits of the same cell, the later one wins. */
  lemma LastEditWins(data: TableData, rowIndex: nat, colIndex: nat, first: string, second: string)
    requires rowIndex < |data| ==> colIndex < |data[rowIndex]|
    ensures HandleCellChange(HandleCellChange(data, rowIndex, colIndex, first), rowIndex, colIndex, second)
         == HandleCellChange(data, rowIndex, colIndex, second)
  {
    var once := HandleCellChange(data, rowIndex, colIndex, first);
    var twice := HandleCellChange(once, rowIndex, colIndex, second);
    var direct := HandleCellChange(data, rowIndex, colIndex, second);
    if rowIndex < |data| {
      assert twice[rowIndex] == direct[rowIndex];
    }
  }

  /** Edits of two different cells do not interfere: their order does not
      matter. */
  lemma EditsOfDistinctCellsCommute(data: TableData, r1: nat, c1: nat, v1: string, r2: nat, c2: nat, v2: string)
    requires r1 < |data| && c1 < |data[r1]|
    requires r2 < |data| && c2 < |data[r2]|
    requires (r1, c1) != (r2, c2)
    ensures HandleCellChange(HandleCellChange(data, r1, c1, v1), r2, c2, v2)
         == HandleCellChange(HandleCellChange(data, r2, c2, v2), r1, c1, v1)
  {
    var a := HandleCellChange(HandleCellChange(data, r1, c1, v1), r2, c2, v2);
    var b := HandleCellChange(HandleCellChange(data, r2, c2, v2), r1, c1, v1);
    forall r | 0 <= r < |data|
      ensures a[r] == b[r]
    {
      if r == r1 || r == r2 {
        assert |a[r]| == |b[r]|;
        forall c | 0 <= c < |a[r]|
          ensures a[r][c] == b[r][c]
        {
        }
      }
    }
  }
}

=== FILE: types.dfy ===
/** The shared vocabulary of the app (types.ts): the extracted table, the
    session status, and the error and optional values the handlers pass around. */
module Types {

  /** A table as the model returns it: rows of cell strings, row 0 being the
      headers. Rows may have different lengths. */
  type TableData = seq<seq<string>>

  /** The `ProcessingStatus` enumeration. */
  datatype ProcessingStatus = Idle | Uploading | Processing | Success | Error

  /** A thrown JavaScript `Error`; only its `message` is ever read. */
  datatype Exception = Exception(message: string)

  /** A value, or the exception that was thrown instead of returning it. */
  datatype Result<+T> = Ok(value: T) | Err(error: Exception)

  /** A value that may be `null` or `undefined`. */
  datatype Option<+T> = None | Some(value: T)

  /** The parts of a browser `File` the handlers read: its media type and its
      size in bytes. */
  datatype File = File(fileType: string, size: nat)

  /** The message a JavaScript engine gives when `.length` is read from
      `undefined` (V8's wording). */
  const UndefinedLengthMessage: string := "Cannot read properties of undefined (reading 'length')"
}
